=== FILE: README.md ===
# Remindzy reminder core, in Dafny

A model of the sequential logic of the Remindzy Android reminder app:

- the `Reminder` record with its defaults, and the `RepeatMode` storage codec;
- `ReminderScheduler.schedule` / `cancel`, acting on an abstract alarm registry;
- the alarm receiver's payload decoding, which closes the loop from scheduling to firing;
- `ReminderViewModel`'s insert/update/delete orchestration and its exact-alarm permission state machine;
- the add/edit dialog's form state and confirm-button validation;
- the list screen's category filter, save dispatch and item labels;
- the category colour lookups.

Platform calls become data:

- The alarm registry is a map from request code to `(trigger time, optional interval, payload)`. The request code is always `reminder.id`, so there is at most one alarm per id.
- `Build.VERSION.SDK_INT >= S`, `canScheduleExactAlarms()` and "the exact-alarm call throws" become a `Platform` value that each scheduling step receives.
- The Room table is a map from id to row, plus an auto-increment key generator.
- Clock-derived values (the dialog's "next full hour" default start) and picker results are parameters.

Coroutines are sequentialised: every ViewModel operation is one atomic step.
The activity's permission plumbing is not modelled. Its calls into the ViewModel are an arbitrary sequence of `Event`s (`ViewModel.Run`).

Files (one module each):

- `optional.dfy`: nullable values.
- `text.dfy`: `isBlank`, ASCII case mapping.
- `reminder.dfy`: the `Reminder` record.
- `converters.dfy`: the `RepeatMode` codec.
- `scheduler.dfy`: `schedule` and `cancel`.
- `receiver.dfy`: `onReceive`.
- `store.dfy`: the table.
- `viewmodel.dfy`: the orchestrator.
- `dialog.dfy`: the add/edit dialog.
- `listscreen.dfy`: the list screen.
- `categories.dfy`: the colour lookups.

The central result is `ViewModel.RunKeepsConsistent`. It holds for any sequence of inserts, updates of listed reminders, deletes and permission callbacks, starting from an empty app. Afterwards, every registered alarm belongs to a stored reminder and is exactly the alarm that reminder's current version schedules. The pending reminder, if any, is a stored one. `ViewModel.FiredAlarmIsCurrent` turns this into "a firing alarm notifies with the current title and description of an existing reminder". This holds for the corrected delete (see Findings).

Assumptions where the code does not fit together, and behaviour worth spelling out:

- The list screen calls `insertReminder` with six arguments: title, description, start, a nullable end, the repeat mode and a category (`ui/ReminderListScreen.kt:242`). The ViewModel's `insertReminder` takes five, with a non-null `endTime` (`model/ReminderViewModel.kt:66-72`), so the call site does not type-check as written. The model resolves the mismatch this way:
  - `ViewModel.InsertReminder` takes the end time as the optional value the screen has.
  - The category is dropped, so the new row gets the default category "Personal" (`model/Reminder.kt:15`).
  - `ReminderList.SaveNewStoresRequest` states this: the category picked in the dialog does not reach the table.
- A grant retries the pending reminder, and `pendingReminder` is cleared only when the retry succeeds (`model/ReminderViewModel.kt:38-45`, `:97-100`). A retry that is refused again keeps the reminder pending and raises the prompt flag again.
- `PendingIntent.getBroadcast(..., FLAG_UPDATE_CURRENT)` runs before the mode is examined. So a refused or throwing one-shot `schedule` still replaces the payload of an alarm already registered under that id (`Scheduler.RefreshPayload`). "Refusal leaves the registry unchanged" therefore holds when no alarm is registered under the id (`Scheduler.RefusedLeavesRegistry`). In the ViewModel that is always the case, since updates cancel first and inserts use fresh ids.
- The confirm button rejects blank titles, including whitespace-only ones, not only empty ones (`ui/AddReminderDialog.kt:153`).

## Model

| member | source | states |
|---|---|---|
| Reminders.NewReminder | app/src/main/java/com/app/reminderpro/model/Reminder.kt:7-16 | a reminder built without id and category has id 0 ("not persisted") and category "Personal", and the repeat mode defaults to once; the given fields are kept |
| Reminders.WithId | app/src/main/java/com/app/reminderpro/model/ReminderViewModel.kt:82 | `copy(id = g)` sets the id and changes nothing else |
| Converters.FromRepeatMode | app/src/main/java/com/app/reminderpro/model/Converters.kt:9-11 | a mode is stored as its constant name: a non-empty, all-capitals string the decoder accepts |
| Converters.ToRepeatMode | app/src/main/java/com/app/reminderpro/model/Converters.kt:15-17 | `valueOf` is defined only on the four constant names, and encoding its result gives the name back |
| Converters.DecodeEncode | app/src/main/java/com/app/reminderpro/model/Converters.kt:9-17 | decoding the stored name of any mode yields that mode |
| Converters.EncodeDecode | app/src/main/java/com/app/reminderpro/model/Converters.kt:9-17 | encoding the decoded mode of any accepted name yields that name |
| Converters.FromRepeatModeInjective | app/src/main/java/com/app/reminderpro/model/Converters.kt:9-11 | distinct modes are stored as distinct strings |
| Converters.EncodedIsModeName | app/src/main/java/com/app/reminderpro/model/Converters.kt:9-11 | every stored name is one the decoder accepts |
| Converters.IsModeNameExactlyTheNames | app/src/main/java/com/app/reminderpro/model/Converters.kt:15-17 | the decoder accepts exactly the strings some mode encodes to |
| Scheduler.IntervalFor | app/src/main/java/com/app/reminderpro/alarm/ReminderScheduler.kt:66-77 | one-shot has no interval; every repeating mode has a positive whole number of days |
| Scheduler.IntervalTable | app/src/main/java/com/app/reminderpro/alarm/ReminderScheduler.kt:65-92 | daily, weekly and monthly repeat every 86,400,000, 604,800,000 and 2,592,000,000 ms; all intervals are positive |
| Scheduler.PayloadFor | app/src/main/java/com/app/reminderpro/alarm/ReminderScheduler.kt:30-34 | the payload has exactly the three keys, holding the reminder's id as an int and its title and description as strings |
| Scheduler.AlarmFor | app/src/main/java/com/app/reminderpro/alarm/ReminderScheduler.kt:47-92 | a registered alarm triggers at the start time, carries the reminder's payload, and has exactly the interval of the mode's table entry: none for one-shot, 1, 7 or 30 days otherwise |
| Scheduler.RefreshPayload | app/src/main/java/com/app/reminderpro/alarm/ReminderScheduler.kt:38-45 | re-fetching the pending intent replaces only the payload of an existing alarm under that id |
| Scheduler.SetExact | app/src/main/java/com/app/reminderpro/alarm/ReminderScheduler.kt:110-125 | without an exception the id holds a one-shot alarm at the start time with the reminder's payload; a swallowed exception adds no alarm and only refreshes an existing payload; other ids untouched |
| Scheduler.Schedule | app/src/main/java/com/app/reminderpro/alarm/ReminderScheduler.kt:27-108 | returns false exactly for a one-shot reminder on S+ without the exact-alarm capability; repeating modes never ask; only the entry keyed by the reminder's id can change; on success it is the reminder's alarm unless the exact call threw |
| Scheduler.RefusedLeavesRegistry | app/src/main/java/com/app/reminderpro/alarm/ReminderScheduler.kt:49-58 | a refused schedule with no alarm yet under the id returns false and leaves the registry unchanged |
| Scheduler.SuccessWithoutAlarm | app/src/main/java/com/app/reminderpro/alarm/ReminderScheduler.kt:110-125 | a swallowed exception still yields true with no alarm registered: true does not guarantee an alarm |
| Scheduler.Cancel | app/src/main/java/com/app/reminderpro/alarm/ReminderScheduler.kt:128-153 | removes the alarm under the id if there is one, is a no-op otherwise, never touches other ids |
| Scheduler.CancelIdempotent | app/src/main/java/com/app/reminderpro/alarm/ReminderScheduler.kt:142-152 | a second cancel of the same id changes nothing |
| Scheduler.CancelThenSchedule | app/src/main/java/com/app/reminderpro/model/ReminderViewModel.kt:59-62 | after cancel-then-schedule the id holds the new reminder's alarm or nothing, and holds it exactly when the schedule is neither refused nor a throwing one-shot |
| AlarmReceiver.GetIntExtra | app/src/main/java/com/app/reminderpro/alarm/ReminderAlarmReceiver.kt:23 | an int extra is read back as stored, anything else gives the default |
| AlarmReceiver.GetStringExtra | app/src/main/java/com/app/reminderpro/alarm/ReminderAlarmReceiver.kt:24-25 | a string extra is read back as stored, anything else gives null |
| AlarmReceiver.Decode | app/src/main/java/com/app/reminderpro/alarm/ReminderAlarmReceiver.kt:23-25 | each of id, title and description is the payload's value when present with the right type, otherwise -1, "Reminder" or "Don't forget!" |
| AlarmReceiver.OnReceive | app/src/main/java/com/app/reminderpro/alarm/ReminderAlarmReceiver.kt:20-34 | the notification shows the payload's title and description, or "Reminder" and "Don't forget!" when missing |
| AlarmReceiver.MissingFieldsDefault | app/src/main/java/com/app/reminderpro/alarm/ReminderAlarmReceiver.kt:23-25 | a missing id decodes to -1, a missing title to "Reminder", a missing description to "Don't forget!" |
| AlarmReceiver.PresentFieldsPassThrough | app/src/main/java/com/app/reminderpro/alarm/ReminderAlarmReceiver.kt:23-33 | present title and description reach the notification verbatim |
| AlarmReceiver.KeysAgree | app/src/main/java/com/app/reminderpro/alarm/ReminderAlarmReceiver.kt:8-12 | the receiver's three extra keys equal the scheduler's |
| AlarmReceiver.DecodeScheduledPayload | app/src/main/java/com/app/reminderpro/alarm/ReminderScheduler.kt:13-17 | round trip: decoding the payload `schedule` writes yields the reminder's own id, title and description |
| AlarmReceiver.FiredAlarmShowsReminder | app/src/main/java/com/app/reminderpro/alarm/ReminderAlarmReceiver.kt:20-34 | whenever schedule leaves an alarm under the id, firing it decodes to that reminder |
| ReminderStore.Insert | app/src/main/java/com/app/reminderpro/model/ReminderDao.kt:12-13 | an unsaved reminder (id 0) is stored under a fresh non-zero key; any other reminder is stored under its own id, replacing the row there; the key is returned and other rows are untouched |
| ReminderStore.InsertStoredIsUpdate | app/src/main/java/com/app/reminderpro/model/ReminderDao.kt:12-20 | with REPLACE, inserting an already stored reminder has the same effect on the rows as updating it |
| ReminderStore.Update | app/src/main/java/com/app/reminderpro/model/ReminderDao.kt:19-20 | replaces the row with the same id if present; no row, no change |
| ReminderStore.Delete | app/src/main/java/com/app/reminderpro/model/ReminderDao.kt:16-17 | removes the row with the id, keeps every other row |
| ReminderStore.AllReminders | app/src/main/java/com/app/reminderpro/model/ReminderDao.kt:9-10 | lists every stored row, each under its key, in strictly ascending id order |
| ViewModel.ScheduleInternal | app/src/main/java/com/app/reminderpro/model/ReminderViewModel.kt:33-47 | a refused schedule makes the reminder pending and requests a prompt; a successful one empties the pending slot and leaves the prompt flag alone |
| ViewModel.InsertReminder | app/src/main/java/com/app/reminderpro/model/ReminderViewModel.kt:66-86 | stores the given fields with the default category under a fresh id and schedules exactly that row; a refused row becomes pending and raises the prompt flag, otherwise pending is emptied and the flag kept; the outcome is untouched |
| ViewModel.UpdateReminder | app/src/main/java/com/app/reminderpro/model/ReminderViewModel.kt:57-64 | writes the row and re-schedules it: afterwards the id holds the new version's alarm exactly when the schedule is neither refused nor a throwing one-shot, and never the old one; other alarms untouched; a refusal makes it pending and raises the prompt flag, otherwise pending is emptied and the flag kept; the outcome is untouched |
| ViewModel.DeleteReminderAsWritten | app/src/main/java/com/app/reminderpro/model/ReminderViewModel.kt:49-55 | no row and no alarm remain for the id; the permission state, pending slot included, is untouched |
| ViewModel.DeleteReminder | app/src/main/java/com/app/reminderpro/model/ReminderViewModel.kt:49-55 | corrected delete: no row and no alarm remain for the id; the deleted reminder no longer waits in the pending slot, a different pending reminder stays pending, and prompt flag and outcome are untouched |
| ViewModel.PromptHandled | app/src/main/java/com/app/reminderpro/model/ReminderViewModel.kt:89-92 | clears the prompt flag; nothing else changes |
| ViewModel.Granted | app/src/main/java/com/app/reminderpro/model/ReminderViewModel.kt:94-101 | outcome becomes granted; exactly the pending reminder is re-scheduled, nothing when none is pending; a refused retry stays pending and raises the prompt flag, a successful one empties pending and keeps the flag |
| ViewModel.Denied | app/src/main/java/com/app/reminderpro/model/ReminderViewModel.kt:103-107 | outcome becomes denied, the pending reminder is dropped, nothing is scheduled |
| ViewModel.ClearOutcome | app/src/main/java/com/app/reminderpro/model/ReminderViewModel.kt:110-113 | only the outcome returns to unset |
| ViewModel.InitialConsistent | app/src/main/java/com/app/reminderpro/model/ReminderViewModel.kt:25-31 | the initial state (no rows, no alarms, nothing pending) satisfies the invariant |
| ViewModel.ScheduleStoredKeepsConsistent | app/src/main/java/com/app/reminderpro/model/ReminderViewModel.kt:33-47 | scheduling a stored reminder keeps every alarm matched to its row |
| ViewModel.InsertKeepsConsistent | app/src/main/java/com/app/reminderpro/model/ReminderViewModel.kt:66-86 | insert preserves the alarm/row/pending invariant |
| ViewModel.UpdateKeepsConsistent | app/src/main/java/com/app/reminderpro/model/ReminderViewModel.kt:57-64 | updating a stored reminder preserves the invariant |
| ViewModel.DeleteKeepsConsistent | app/src/main/java/com/app/reminderpro/model/ReminderViewModel.kt:49-55 | the corrected delete preserves the invariant |
| ViewModel.GrantedKeepsConsistent | app/src/main/java/com/app/reminderpro/model/ReminderViewModel.kt:94-101 | the grant callback preserves the invariant |
| ViewModel.StepKeepsConsistent | app/src/main/java/com/app/reminderpro/model/ReminderViewModel.kt:49-113 | every single orchestrator call preserves the invariant |
| ViewModel.RunKeepsConsistent | app/src/main/java/com/app/reminderpro/model/ReminderViewModel.kt:33-113 | any sequence of user actions and permission callbacks keeps every alarm tied to a stored reminder's current version |
| ViewModel.FiredAlarmIsCurrent | app/src/main/java/com/app/reminderpro/model/ReminderViewModel.kt:57-64 | under the invariant a firing alarm notifies with the current title and description of an existing reminder |
| ViewModel.GrantRetriesRefused | app/src/main/java/com/app/reminderpro/model/ReminderViewModel.kt:94-101 | granting after a refusal registers exactly the refused reminder's alarm and empties the pending slot |
| ViewModel.DeleteTwice | app/src/main/java/com/app/reminderpro/model/ReminderViewModel.kt:49-55 | after delete there is no row and no alarm for the id, and deleting again is a no-op |
| ViewModel.DeletedPendingIsRescheduled | app/src/main/java/com/app/reminderpro/model/ReminderViewModel.kt:49-55 | as written, deleting the pending reminder and then granting registers an alarm for a deleted reminder |
| ViewModel.OrphanAlarmExample | app/src/main/java/com/app/reminderpro/model/ReminderViewModel.kt:94-101 | a concrete insert, delete, grant run that leaves an alarm without a row |
| ViewModel.DeletedPendingStaysCancelled | app/src/main/java/com/app/reminderpro/model/ReminderViewModel.kt:49-55 | with the corrected delete, a later grant registers nothing for the deleted reminder |
| AddReminder.InitialFormAsWritten | app/src/main/java/com/app/reminderpro/ui/AddReminderDialog.kt:76-106 | a new reminder starts blank, one-shot, at the default start, without end time; an edit starts from the reminder's fields with the end switch on iff it has an end; the category always starts as "Personal" |
| AddReminder.InitialForm | app/src/main/java/com/app/reminderpro/ui/AddReminderDialog.kt:76-106 | corrected initial state: as above, but an edit starts from the reminder's own category |
| AddReminder.ToggleEnd | app/src/main/java/com/app/reminderpro/ui/AddReminderDialog.kt:337-349 | switching on with no end proposes start plus one hour, switching off clears the end, nothing else changes |
| AddReminder.InitialEndShown | app/src/main/java/com/app/reminderpro/ui/AddReminderDialog.kt:95-101 | initially an enabled end time has a value |
| AddReminder.EditsKeepEndShown | app/src/main/java/com/app/reminderpro/ui/AddReminderDialog.kt:337-422 | the switch and the pickers keep "end enabled implies end present" |
| AddReminder.SavedEnd | app/src/main/java/com/app/reminderpro/ui/AddReminderDialog.kt:159-163 | the saved end is the end calendar when enabled and absent otherwise |
| AddReminder.Confirm | app/src/main/java/com/app/reminderpro/ui/AddReminderDialog.kt:152-170 | a blank title, or an enabled end at or before the start, is rejected; otherwise onSave receives exactly the form's six values |
| AddReminder.SavedRequestIsValid | app/src/main/java/com/app/reminderpro/ui/AddReminderDialog.kt:153-168 | every saved request has a non-blank title and an end, if any, strictly after the start |
| AddReminder.DisabledEndIgnored | app/src/main/java/com/app/reminderpro/ui/AddReminderDialog.kt:159-163 | with the switch off the end calendar's content is irrelevant and the saved end is null |
| ReminderList.KeepCategory | app/src/main/java/com/app/reminderpro/ui/ReminderListScreen.kt:172 | keeps exactly the reminders whose category equals the filter ignoring case |
| ReminderList.FilterByCategory | app/src/main/java/com/app/reminderpro/ui/ReminderListScreen.kt:169-173 | "All" returns the list unchanged; any other filter keeps exactly the case-insensitive matches |
| ReminderList.KeepCategoryIsSelection | app/src/main/java/com/app/reminderpro/ui/ReminderListScreen.kt:171-173 | the filter result is the list with the non-matching reminders removed, order kept |
| ReminderList.FilterIsSubsequence | app/src/main/java/com/app/reminderpro/ui/ReminderListScreen.kt:169-173 | the shown list is a subsequence of the full list |
| ReminderList.FilterIdempotent | app/src/main/java/com/app/reminderpro/ui/ReminderListScreen.kt:169-173 | filtering twice by the same selection equals filtering once |
| ReminderList.FilterKeepsOrder | app/src/main/java/com/app/reminderpro/ui/ReminderListScreen.kt:169-173 | filtering an ascending-id listing keeps it ascending |
| ReminderList.ShownReminders | app/src/main/java/com/app/reminderpro/ui/ReminderListScreen.kt:129-173 | the screen shows stored rows only, in ascending id order, and every stored row that matches the filter |
| ReminderList.OnSave | app/src/main/java/com/app/reminderpro/ui/ReminderListScreen.kt:240-255 | no reminder under edit dispatches insert; otherwise update with a copy that keeps the id and takes the six edited fields |
| ReminderList.SaveNewStoresRequest | app/src/main/java/com/app/reminderpro/ui/ReminderListScreen.kt:240-242 | saving a new reminder stores the dialog's fields under a fresh id, but with the default category |
| ReminderList.Submit | app/src/main/java/com/app/reminderpro/ui/AddReminderDialog.kt:152-170 | a rejected form changes nothing; a saved new reminder adds exactly one row under the fresh key, with the dialog's fields and the default category, and its alarm is registered whenever the schedule is neither refused nor a throwing one-shot; a saved edit adds no row, writes the dialog's copy over the stored one, and its id holds that copy's alarm exactly when the schedule registers one; rows other than the edited one are never touched |
| ReminderList.InvalidFormDispatchesNothing | app/src/main/java/com/app/reminderpro/ui/AddReminderDialog.kt:152-170 | pressing confirm on a form with a blank title or a non-positive span leaves table, registry and permission state unchanged, whether adding or editing |
| ReminderList.ValidNewFormIsStored | app/src/main/java/com/app/reminderpro/ui/ReminderListScreen.kt:240-242 | pressing confirm on a valid new form always adds a row under a fresh key |
| ReminderList.EditUnchangedRoundTrip | app/src/main/java/com/app/reminderpro/ui/AddReminderDialog.kt:104-106 | with the corrected dialog, editing a valid reminder without changes updates it with itself |
| ReminderList.EditUnchangedResetsCategory | app/src/main/java/com/app/reminderpro/ui/AddReminderDialog.kt:106 | as written, editing a reminder without changes rewrites a non-"Personal" category to "Personal" |
| ReminderList.CategoryTag | app/src/main/java/com/app/reminderpro/ui/ReminderListScreen.kt:408-412 | the tag is shown iff the category is non-blank; "personal" in any case gets the peach pair, anything else the fallback |
| ReminderList.RepeatStamp | app/src/main/java/com/app/reminderpro/ui/ReminderListScreen.kt:431-441 | every mode gets a stamp: the first letter of its constant name followed by the rest of the name in lower case |
| ReminderList.StampSpellsName | app/src/main/java/com/app/reminderpro/ui/ReminderListScreen.kt:431-441 | every mode gets a stamp; it is the mode name with only the first letter capital, so upper-casing it gives the name back |
| ReminderList.StampLabels | app/src/main/java/com/app/reminderpro/ui/ReminderListScreen.kt:441 | the stamps read "Once", "Daily", "Weekly", "Monthly" |
| ReminderList.StampInjective | app/src/main/java/com/app/reminderpro/ui/ReminderListScreen.kt:441 | distinct modes get distinct stamps |
| CategoryColors.CategoryColor | app/src/main/java/com/app/reminderpro/ui/CategoryUtils.kt:5-13 | the background is LightGray exactly for names outside personal, work, health and finance (ignoring case), and always a fully opaque ARGB colour |
| CategoryColors.CategoryTextColor | app/src/main/java/com/app/reminderpro/ui/CategoryUtils.kt:15-23 | the text colour is DarkGray exactly for names outside the four known categories (ignoring case), and always fully opaque |
| CategoryColors.CaseInsensitive | app/src/main/java/com/app/reminderpro/ui/CategoryUtils.kt:5-23 | names equal ignoring case get equal background and text colours |
| CategoryColors.KnownColorsDistinct | app/src/main/java/com/app/reminderpro/ui/CategoryUtils.kt:6-20 | personal, work, health and finance get four distinct backgrounds and four distinct text colours |
| CategoryColors.UnknownIsGray | app/src/main/java/com/app/reminderpro/ui/CategoryUtils.kt:11-21 | any other category gets LightGray on DarkGray |
| CategoryColors.SameKeySet | app/src/main/java/com/app/reminderpro/ui/CategoryUtils.kt:5-23 | both lookups recognise exactly the same four keys |

## Left out

- `MainActivity.kt`: SDK checks, settings intents, dialogs and resume-time rechecks. Its calls into the ViewModel are arbitrary `ViewModel.Event`s.
- `NotificationUtils.kt`: notification channel and manager I/O. The model stops at the notification request (title, text). The notification id comes from the wall clock.
- `ReminderDatabase.kt`, `ReminderRepository.kt`, `ReminderViewModelFactory.kt` and `settings.gradle.kts` are wiring and build configuration. `ReminderDao.kt` is reduced to a map, a key generator and the ascending-id listing.
- Coroutines and `StateFlow`: each ViewModel operation is one atomic step, and the list is recomputed from the table on demand.
- Calendar, date formatting and time zones. The "next full hour" default start and the pickers' results are parameters. Timestamps are unbounded integers, so `Long` overflow is not modelled; the intervals used fit easily.
- `generatedId.toInt()`: the truncation of a 64-bit row id to 32 bits is not modelled. Keys are assumed to stay below 2^31.
- Exceptions other than the swallowed exact-alarm exception. An exception from `setRepeating` is uncaught and crashes the process. The one `cancel` swallows is treated as a successful cancel. Both are left out.
- When alarms fire, and the platform dropping a fired one-shot alarm: the model covers registration and the payload, not the platform's clock.
- Toasts, log calls, Compose layout, icons, and the duplicated full-list rendering beside the filtered list: presentation only.
- Text: `lowercase`, `uppercase` and `equals(ignoreCase = true)` are modelled on ASCII letters only. Non-ASCII letters keep their case. The category names and mode names involved are ASCII.
- `Converters.ToRepeatMode`: the `IllegalArgumentException` that `valueOf` throws on an unknown name is a precondition, not an error value.

## Findings

| source | as written | input that shows it | evidently intended | confidence | as-written member | corrected member |
|---|---|---|---|---|---|---|
| app/src/main/java/com/app/reminderpro/model/ReminderViewModel.kt:49-55 | `deleteReminder` cancels the alarm but leaves `pendingReminder` set, and a later grant re-schedules it | through the ViewModel's API on Android 12+ without the exact-alarm permission: `insertReminder` of a one-shot reminder (refused, so it becomes pending), `deleteReminder` of it, then `onExactAlarmPermissionGranted`; an alarm is registered for a reminder that no longer exists (`ViewModel.OrphanAlarmExample`, `ViewModel.DeletedPendingIsRescheduled`). In the app as shipped the activity narrows this: its non-cancelable prompt (`MainActivity.kt:78-84`, `:178-183`) and the `onResume` re-check (`MainActivity.kt:198-220`) call grant or deny, which retry or clear the pending reminder, before the list is usable again | deleting a reminder also drops it from the pending slot, so no alarm outlives its row (`ViewModel.DeletedPendingStaysCancelled`, `ViewModel.RunKeepsConsistent`) | medium, not executed | ViewModel.DeleteReminderAsWritten | ViewModel.DeleteReminder |
| app/src/main/java/com/app/reminderpro/ui/AddReminderDialog.kt:106 | the category dropdown starts on "Personal" even when editing | open a reminder of category "Work" for editing and press Update without changing anything; the update writes category "Personal" (`ReminderList.EditUnchangedResetsCategory`) | the dropdown starts on the edited reminder's category, so an unchanged edit is a no-op (`ReminderList.EditUnchangedRoundTrip`) | medium, not executed | AddReminder.InitialFormAsWritten | AddReminder.InitialForm |

=== FILE: categories.dfy ===
/** `CategoryUtils`: background and text colours of a category chip, looked up
    case-insensitively. Colours are 32-bit ARGB values. */
module CategoryColors {
  import opened Text

  /** `Color.LightGray` and `Color.DarkGray`. */
  const LightGray: int := 0xFFCCCCCC
  const DarkGray: int := 0xFF444444

  /** A 32-bit ARGB colour with full alpha. */
  predicate Opaque(argb: int) {
    0xFF00_0000 <= argb <= 0xFFFF_FFFF
  }

  /** The lower-cased names the two lookups recognise. */
  const KnownKeys: set<string> := {"personal", "work", "health", "finance"}

  predicate IsKnownCategory(category: string) {
    Lower(category) in KnownKeys
  }

  /** `getCategoryColor(category)`. */
  function CategoryColor(category: string): (argb: int)
    ensures argb == LightGray <==> !IsKnownCategory(category)
    ensures Opaque(argb)
  {
    var key := Lower(category);
    if key == "personal" then 0xFFD1C4E9       // light purple
    else if key == "work" then 0xFFBBDEFB      // light blue
    else if key == "health" then 0xFFC8E6C9    // light green
    else if key == "finance" then 0xFFFFF9C4   // light yellow
    else LightGray
  }

  /** `getCategoryTextColor(category)`. */
  function CategoryTextColor(category: string): (argb: int)
    ensures argb == DarkGray <==> !IsKnownCategory(category)
    ensures Opaque(argb)
  {
    var key := Lower(category);
    if key == "personal" then 0xFF4A148C
    else if key == "work" then 0xFF0D47A1
    else if key == "health" then 0xFF1B5E20
    else if key == "finance" then 0xFFF57F17
    else DarkGray
  }

  /** Both lookups ignore case: names that lower-case alike get the same colours. */
  lemma CaseInsensitive(a: string, b: string)
    requires EqualsIgnoreCase(a, b)
    ensures CategoryColor(a) == CategoryColor(b)
    ensures CategoryTextColor(a) == CategoryTextColor(b)
  {
  }

  /** The four known categories get four distinct backgrounds and four
      distinct text colours. */
  lemma KnownColorsDistinct(a: string, b: string)
    requires IsKnownCategory(a) && IsKnownCategory(b)
    requires !EqualsIgnoreCase(a, b)
    ensures CategoryColor(a) != CategoryColor(b)
    ensures CategoryTextColor(a) != CategoryTextColor(b)
  {
  }

  /** Anything else falls back to the grey defaults. */
  lemma UnknownIsGray(category: string)
    requires !IsKnownCategory(category)
    ensures CategoryColor(category) == LightGray
    ensures CategoryTextColor(category) == DarkGray
  {
  }

  /** The two lookups recognise exactly the same key set: a category gets a
      non-default background exactly when it gets a non-default text colour. */
  lemma SameKeySet(category: string)
    ensures CategoryColor(category) != LightGray <==> IsKnownCategory(category)
    ensures CategoryTextColor(category) != DarkGray <==> IsKnownCategory(category)
  {
  }
}

=== FILE: converters.dfy ===
/** The storage codec for `RepeatMode`: the mode is stored as its constant name
    and read back with `RepeatMode.valueOf`. */
module Converters {
  import opened Reminders
  import opened Text

  /** The constant name of a mode (`value.name`). */
  function FromRepeatMode(m: RepeatMode): (s: string)
    ensures IsModeName(s)
    // constant names are written in capitals
    ensures |s| > 0 && forall i :: 0 <= i < |s| ==> IsUpperAscii(s[i])
  {
    match m
    case Once => "ONCE"
    case Daily => "DAILY"
    case Weekly => "WEEKLY"
    case Monthly => "MONTHLY"
  }

  /** The strings `valueOf` accepts: exactly the constant names, case-sensitive. */
  predicate IsModeName(s: string) {
    s == "ONCE" || s == "DAILY" || s == "WEEKLY" || s == "MONTHLY"
  }

  /** `RepeatMode.valueOf(value)`. Any other string makes `valueOf` throw
      `IllegalArgumentException`; that is the caller's obligation here. */
  function ToRepeatMode(s: string): (m: RepeatMode)
    requires IsModeName(s)
    ensures FromRepeatMode(m) == s
  {
    if s == "ONCE" then Once
    else if s == "DAILY" then Daily
    else if s == "WEEKLY" then Weekly
    else Monthly
  }

  /** Every mode encodes to a name the decoder accepts. */
  lemma EncodedIsModeName(m: RepeatMode)
    ensures IsModeName(FromRepeatMode(m))
  {
  }

  /** Decoding an encoded mode gives the mode back. */
  lemma DecodeEncode(m: RepeatMode)
    ensures ToRepeatMode(FromRepeatMode(m)) == m
  {
  }

  /** Encoding a decoded name gives the name back. */
  lemma EncodeDecode(s: string)
    requires IsModeName(s)
    ensures FromRepeatMode(ToRepeatMode(s)) == s
  {
  }

  /** Distinct modes are stored as distinct strings. */
  lemma FromRepeatModeInjective(m1: RepeatMode, m2: RepeatMode)
    ensures FromRepeatMode(m1) == FromRepeatMode(m2) ==> m1 == m2
  {
  }

  /** The decoder accepts exactly the strings some mode encodes to. */
  lemma IsModeNameExactlyTheNames(s: string)
    ensures IsModeName(s) <==> exists m: RepeatMode :: FromRepeatMode(m) == s
  {
    if IsModeName(s) {
      assert FromRepeatMode(ToRepeatMode(s)) == s;
    }
  }
}

=== FILE: dialog.dfy ===
/** `AddReminderDialog`: the add/edit form's state, its end-time switch and
    pickers, and the confirm button's validation. Calendars are plain epoch
    milliseconds; the pickers' date/time arithmetic is not modelled, only the
    value they produce. */
module AddReminder {
  import opened Optional
  import opened Text
  import opened Reminders

  /** One hour, in milliseconds (`Calendar.add(HOUR_OF_DAY, 1)`). */
  const Hour: int := 3_600_000

  /** The dialog's remembered state. */
  datatype Form = Form(
    title: string,
    description: string,
    start: int,                // startCalendar
    end: Option<int>,          // endCalendar
    endEnabled: bool,          // isEndTimeEnabled
    repeatMode: RepeatMode,
    category: string)          // selectedCategory

  /** The category the dropdown starts on. */
  const InitialCategory: string := "Personal"

  /** The initial state as the source writes it. `defaultStart` is the start
      shown for a new reminder (the next full hour, computed from the clock).
      The category starts on "Personal" even when editing. */
  function InitialFormAsWritten(toEdit: Option<Reminder>, defaultStart: int): (f: Form)
    ensures f.category == InitialCategory
    ensures toEdit.None? ==> f.repeatMode == Once && f.title == "" && f.description == ""
                             && f.start == defaultStart && f.end.None? && !f.endEnabled
    ensures toEdit.Some? ==> var r := toEdit.value;
      && f.title == r.title && f.description == r.description
      && f.start == r.startTime && f.end == r.endTime
      && f.endEnabled == r.endTime.Some? && f.repeatMode == r.repeatMode
  {
    match toEdit
    case None => Form("", "", defaultStart, None, false, Once, InitialCategory)
    case Some(r) => Form(r.title, r.description, r.startTime, r.endTime,
                         r.endTime.Some?, r.repeatMode, InitialCategory)
  }

  /** The initial state corrected: an edited reminder's category is shown as
      it is, like every other field. */
  function InitialForm(toEdit: Option<Reminder>, defaultStart: int): (f: Form)
    ensures toEdit.None? ==> f == InitialFormAsWritten(toEdit, defaultStart)
    ensures toEdit.Some? ==> f == InitialFormAsWritten(toEdit, defaultStart).(category := toEdit.value.category)
  {
    match toEdit
    case None => Form("", "", defaultStart, None, false, Once, InitialCategory)
    case Some(r) => Form(r.title, r.description, r.startTime, r.endTime,
                         r.endTime.Some?, r.repeatMode, r.category)
  }

  /** The switch's `onCheckedChange`: turning it on with no end time proposes
      one hour after the start; turning it off clears the end time. */
  function ToggleEnd(f: Form, on: bool): (f': Form)
    ensures f'.endEnabled == on
    ensures on && f.end.None? ==> f'.end == Some(f.start + Hour)
    ensures on && f.end.Some? ==> f'.end == f.end
    ensures !on ==> f'.end.None?
    ensures f'.(end := f.end, endEnabled := f.endEnabled) == f
  {
    if on && f.end.None? then f.(endEnabled := on, end := Some(f.start + Hour))
    else if !on then f.(endEnabled := on, end := None)
    else f.(endEnabled := on)
  }

  /** The user's changes to the form. */
  datatype FormEdit =
    | SetTitle(title: string)
    | SetDescription(description: string)
    | PickStart(start: int)
    | PickEnd(end: int)
    | SwitchEnd(on: bool)
    | SetRepeat(mode: RepeatMode)
    | SetCategory(category: string)

  function Apply(f: Form, e: FormEdit): Form {
    match e
    case SetTitle(t) => f.(title := t)
    case SetDescription(d) => f.(description := d)
    case PickStart(s) => f.(start := s)
    case PickEnd(t) => f.(end := Some(t))
    case SwitchEnd(on) => ToggleEnd(f, on)
    case SetRepeat(m) => f.(repeatMode := m)
    case SetCategory(c) => f.(category := c)
  }

  function ApplyAll(f: Form, es: seq<FormEdit>): Form
    decreases |es|
  {
    if es == [] then f else ApplyAll(Apply(f, es[0]), es[1..])
  }

  /** An enabled end time always has a value. */
  predicate EndShown(f: Form) {
    f.endEnabled ==> f.end.Some?
  }

  lemma InitialEndShown(toEdit: Option<Reminder>, defaultStart: int)
    ensures EndShown(InitialFormAsWritten(toEdit, defaultStart))
    ensures EndShown(InitialForm(toEdit, defaultStart))
  {
  }

  /** Every sequence of edits keeps an enabled end time populated. */
  lemma {:induction false} EditsKeepEndShown(f: Form, es: seq<FormEdit>)
    requires EndShown(f)
    ensures EndShown(ApplyAll(f, es))
    decreases |es|
  {
    if es != [] {
      assert EndShown(Apply(f, es[0]));
      EditsKeepEndShown(Apply(f, es[0]), es[1..]);
    }
  }

  /** What `onSave` receives. */
  datatype SaveRequest = SaveRequest(
    title: string,
    description: string,
    start: int,
    end: Option<int>,
    repeatMode: RepeatMode,
    category: string)

  datatype Rejection = BlankTitle | EndNotAfterStart

  /** The confirm button: either a rejection (a toast, the dialog stays open)
      or the call to `onSave`. */
  datatype Confirmed = Rejected(why: Rejection) | Saved(request: SaveRequest)

  /** The end time that is saved: none unless the switch is on. */
  function SavedEnd(f: Form): (e: Option<int>)
    ensures !f.endEnabled ==> e.None?
    ensures f.endEnabled ==> e == f.end
  {
    if f.endEnabled then f.end else None
  }

  function Confirm(f: Form): (c: Confirmed)
    // blank titles never reach onSave, whatever else the form holds
    ensures IsBlank(f.title) ==> c == Rejected(BlankTitle)
    // an enabled end time at or before the start never reaches onSave
    ensures !IsBlank(f.title) && f.endEnabled && f.end.Some? && f.end.value <= f.start ==>
              c == Rejected(EndNotAfterStart)
    // otherwise onSave receives the form's fields unchanged
    ensures c.Saved? <==> !IsBlank(f.title) && !(f.endEnabled && f.end.Some? && f.end.value <= f.start)
    ensures c.Saved? ==> c.request == SaveRequest(f.title, f.description, f.start, SavedEnd(f),
                                                  f.repeatMode, f.category)
  {
    if IsBlank(f.title) then Rejected(BlankTitle)
    else
      var end := SavedEnd(f);
      if end.Some? && end.value <= f.start then Rejected(EndNotAfterStart)
      else Saved(SaveRequest(f.title, f.description, f.start, end, f.repeatMode, f.category))
  }

  /** Every saved request has a non-blank title and, if it has an end time,
      one strictly after its start. */
  lemma SavedRequestIsValid(f: Form)
    requires Confirm(f).Saved?
    ensures !IsBlank(Confirm(f).request.title)
    ensures Confirm(f).request.end.Some? ==> Confirm(f).request.end.value > Confirm(f).request.start
  {
  }

  /** With the switch off, the saved end is absent whatever the end calendar
      holds. */
  lemma DisabledEndIgnored(f: Form, t: Option<int>)
    requires !f.endEnabled
    ensures Confirm(f) == Confirm(f.(end := t))
    ensures Confirm(f).Saved? ==> Confirm(f).request.end.None?
  {
  }
}

=== FILE: listscreen.dfy ===
/** `ReminderListScreen`: the category filter, the save dispatch from the
    dialog to the orchestrator, and the two labels each list item shows. */
module ReminderList {
  import opened Optional
  import opened Text
  import opened Reminders
  import Converters
  import opened Scheduler
  import opened ReminderStore
  import opened AddReminder
  import opened ViewModel

  // ---------------------------------------------------------------------
  // Category filter
  // ---------------------------------------------------------------------

  /** The filter value that shows everything. */
  const AllFilter: string := "All"

  predicate InCategory(r: Reminder, category: string) {
    EqualsIgnoreCase(r.category, category)
  }

  /** `reminders.filter { it.category.equals(selected, ignoreCase = true) }`. */
  function KeepCategory(rows: seq<Reminder>, category: string): (kept: seq<Reminder>)
    ensures |kept| <= |rows|
    ensures forall x :: x in kept <==> x in rows && InCategory(x, category)
    decreases |rows|
  {
    if rows == [] then []
    else
      var rest := KeepCategory(rows[1..], category);
      if InCategory(rows[0], category) then [rows[0]] + rest else rest
  }

  /** The list the screen shows for the selected filter. */
  function FilterByCategory(rows: seq<Reminder>, selected: string): (shown: seq<Reminder>)
    ensures selected == AllFilter ==> shown == rows
    ensures selected != AllFilter ==>
              forall x :: x in shown <==> x in rows && InCategory(x, selected)
  {
    if selected == AllFilter then rows else KeepCategory(rows, selected)
  }

  /** The elements of `ys` whose flag in `keep` is set, in order. */
  function Select<T>(ys: seq<T>, keep: seq<bool>): (xs: seq<T>)
    requires |keep| == |ys|
    decreases |ys|
  {
    if ys == [] then []
    else (if keep[0] then [ys[0]] else []) + Select(ys[1..], keep[1..])
  }

  /** `xs` is `ys` with some elements left out, the rest kept in order. */
  ghost predicate IsSubsequence<T>(xs: seq<T>, ys: seq<T>) {
    exists keep: seq<bool> :: |keep| == |ys| && Select(ys, keep) == xs
  }

  /** Which rows the filter keeps. */
  function CategoryMask(rows: seq<Reminder>, category: string): (keep: seq<bool>)
    ensures |keep| == |rows|
    ensures forall i :: 0 <= i < |rows| ==> (keep[i] <==> InCategory(rows[i], category))
  {
    seq(|rows|, i requires 0 <= i < |rows| => InCategory(rows[i], category))
  }

  /** The filter keeps exactly the matching rows, in their original order. */
  lemma {:induction false} KeepCategoryIsSelection(rows: seq<Reminder>, category: string)
    ensures KeepCategory(rows, category) == Select(rows, CategoryMask(rows, category))
    decreases |rows|
  {
    if rows != [] {
      KeepCategoryIsSelection(rows[1..], category);
      assert CategoryMask(rows, category)[1..] == CategoryMask(rows[1..], category);
    }
  }

  /** The filtered list is a subsequence of the full list. */
  lemma FilterIsSubsequence(rows: seq<Reminder>, selected: string)
    ensures IsSubsequence(FilterByCategory(rows, selected), rows)
  {
    if selected == AllFilter {
      var all := seq(|rows|, i requires 0 <= i < |rows| => true);
      SelectAll(rows, all);
    } else {
      KeepCategoryIsSelection(rows, selected);
    }
  }

  lemma {:induction false} SelectAll<T>(ys: seq<T>, keep: seq<bool>)
    requires |keep| == |ys| && forall i :: 0 <= i < |keep| ==> keep[i]
    ensures Select(ys, keep) == ys
    decreases |ys|
  {
    if ys != [] {
      SelectAll(ys[1..], keep[1..]);
    }
  }

  /** A list whose rows all match is kept whole. */
  lemma {:induction false} KeepAllMatching(rows: seq<Reminder>, category: string)
    requires forall x :: x in rows ==> InCategory(x, category)
    ensures KeepCategory(rows, category) == rows
    decreases |rows|
  {
    if rows != [] {
      assert rows[0] in rows;
      assert forall x :: x in rows[1..] ==> x in rows;
      KeepAllMatching(rows[1..], category);
    }
  }

  /** Filtering twice by the same selection is filtering once. */
  lemma FilterIdempotent(rows: seq<Reminder>, selected: string)
    ensures FilterByCategory(FilterByCategory(rows, selected), selected)
            == FilterByCategory(rows, selected)
  {
    if selected != AllFilter {
      KeepAllMatching(KeepCategory(rows, selected), selected);
    }
  }

  /** Ids strictly ascending, as the listing query returns them. */
  predicate AscendingIds(rows: seq<Reminder>) {
    forall i, j :: 0 <= i < j < |rows| ==> rows[i].id < rows[j].id
  }

  /** Filtering an ascending listing keeps it ascending. */
  lemma FilterKeepsOrder(rows: seq<Reminder>, selected: string)
    requires AscendingIds(rows)
    ensures AscendingIds(FilterByCategory(rows, selected))
  {
    if selected != AllFilter {
      KeepOrder(rows, selected);
    }
  }

  lemma {:induction false} KeepOrder(rows: seq<Reminder>, category: string)
    requires AscendingIds(rows)
    ensures AscendingIds(KeepCategory(rows, category))
    decreases |rows|
  {
    if rows != [] {
      AscendingSplit(rows);
      KeepOrder(rows[1..], category);
      if InCategory(rows[0], category) {
        AscendingCons(rows[0], KeepCategory(rows[1..], category));
      }
    }
  }

  /** An ascending list is its least element followed by an ascending list. */
  lemma AscendingSplit(rows: seq<Reminder>)
    requires AscendingIds(rows) && rows != []
    ensures AscendingIds(rows[1..])
    ensures forall y :: y in rows[1..] ==> rows[0].id < y.id
  {
    var tail := rows[1..];
    forall i, j | 0 <= i < j < |tail| ensures tail[i].id < tail[j].id {
      assert tail[i] == rows[i + 1] && tail[j] == rows[j + 1];
    }
    forall y | y in tail ensures rows[0].id < y.id {
      var k :| 0 <= k < |tail| && tail[k] == y;
      assert rows[k + 1] == y;
    }
  }

  lemma AscendingCons(x: Reminder, rest: seq<Reminder>)
    requires AscendingIds(rest)
    requires forall y :: y in rest ==> x.id < y.id
    ensures AscendingIds([x] + rest)
  {
    var s := [x] + rest;
    forall i, j | 0 <= i < j < |s| ensures s[i].id < s[j].id {
      assert s[j] == rest[j - 1] && s[j] in rest;
      if i > 0 {
        assert s[i] == rest[i - 1];
      }
    }
  }

  /** What the screen shows for a table: the ascending listing, filtered. */
  method ShownReminders(t: ReminderTable, selected: string) returns (shown: seq<Reminder>)
    ensures AscendingIds(shown)
    ensures forall x :: x in shown ==> x.id in t.rows && t.rows[x.id] == x
    ensures forall k :: k in t.rows && (selected == AllFilter || InCategory(t.rows[k], selected))
              ==> t.rows[k] in shown
    ensures selected != AllFilter ==> forall x :: x in shown ==> InCategory(x, selected)
  {
    var rows := AllReminders(t.rows);
    FilterKeepsOrder(rows, selected);
    shown := FilterByCategory(rows, selected);
  }

  // ---------------------------------------------------------------------
  // Save dispatch
  // ---------------------------------------------------------------------

  /** The two calls `onSave` can make. `insertReminder` takes no category. */
  datatype Dispatch =
    | InsertCall(title: string, description: string, start: int,
                 end: Option<int>, repeatMode: RepeatMode)
    | UpdateCall(reminder: Reminder)

  /** The six fields the dialog edits. */
  function EditedFields(r: Reminder): SaveRequest {
    SaveRequest(r.title, r.description, r.startTime, r.endTime, r.repeatMode, r.category)
  }

  /** `onSave`: a new reminder is inserted; an edited one is updated with a
      copy that keeps its id and takes the six edited fields. */
  function OnSave(toEdit: Option<Reminder>, req: SaveRequest): (d: Dispatch)
    ensures d.InsertCall? <==> toEdit.None?
    ensures d.InsertCall? ==>
              d == InsertCall(req.title, req.description, req.start, req.end, req.repeatMode)
    ensures d.UpdateCall? ==>
              d.reminder.id == toEdit.value.id && EditedFields(d.reminder) == req
  {
    match toEdit
    case None => InsertCall(req.title, req.description, req.start, req.end, req.repeatMode)
    case Some(r) => UpdateCall(r.(title := req.title, description := req.description,
                                  startTime := req.start, endTime := req.end,
                                  repeatMode := req.repeatMode, category := req.category))
  }

  /** The orchestrator call a dispatch makes. */
  function Perform(a: App, env: Platform, d: Dispatch): App {
    match d
    case InsertCall(t, desc, s, e, m) => InsertReminder(a, env, t, desc, s, e, m)
    case UpdateCall(r) => UpdateReminder(a, env, r)
  }

  /** Saving a new reminder stores the dialog's fields under a fresh id; the
      category the user picked is not passed on, so the row gets the default. */
  lemma SaveNewStoresRequest(a: App, env: Platform, f: Form)
    requires Confirm(f).Saved?
    ensures var req := Confirm(f).request;
      var b := Perform(a, env, OnSave(None, req));
      var id := a.table.nextId;
      && id in b.table.rows && id !in a.table.rows
      && EditedFields(b.table.rows[id]) == req.(category := DefaultCategory)
  {
  }

  /** Pressing the confirm button: a rejected form leaves the app as it is; a
      saved one goes through `onSave` to the orchestrator. */
  function Submit(a: App, env: Platform, toEdit: Option<Reminder>, f: Form): (b: App)
    ensures Confirm(f).Rejected? ==> b == a
    ensures Confirm(f).Saved? && toEdit.None? ==>
              b.table.rows.Keys == a.table.rows.Keys + {a.table.nextId}
              && a.table.nextId !in a.table.rows
    ensures Confirm(f).Saved? && toEdit.Some? ==> b.table.rows.Keys == a.table.rows.Keys
    ensures forall k :: k in a.table.rows && (toEdit.None? || k != toEdit.value.id) ==>
              k in b.table.rows && b.table.rows[k] == a.table.rows[k]
    // a saved new reminder is stored with the default category and scheduled
    ensures Confirm(f).Saved? && toEdit.None? ==>
              var id := a.table.nextId;
              var row := b.table.rows[id];
              && EditedFields(row) == Confirm(f).request.(category := DefaultCategory)
              && (Registers(env, row) ==> id in b.registry && b.registry[id] == AlarmFor(row))
              && (!Registers(env, row) && id !in a.registry ==> id !in b.registry)
    // a saved edit writes the dialog's copy and schedules it afresh
    ensures Confirm(f).Saved? && toEdit.Some? ==>
              var id := toEdit.value.id;
              var row := OnSave(toEdit, Confirm(f).request).reminder;
              && row.id == id
              && (id in a.table.rows ==> b.table.rows[id] == row)
              && (id in b.registry <==> Registers(env, row))
              && (id in b.registry ==> b.registry[id] == AlarmFor(row))
  {
    match Confirm(f)
    case Rejected(_) => a
    case Saved(req) => Perform(a, env, OnSave(toEdit, req))
  }

  /** A blank title or an end at or before the start never reaches the
      table or the registry, for a new reminder and an edited one alike. */
  lemma InvalidFormDispatchesNothing(a: App, env: Platform, toEdit: Option<Reminder>, f: Form)
    requires IsBlank(f.title) || (f.endEnabled && f.end.Some? && f.end.value <= f.start)
    ensures Submit(a, env, toEdit, f) == a
  {
  }

  /** A valid new reminder always reaches the table. */
  lemma ValidNewFormIsStored(a: App, env: Platform, f: Form)
    requires !IsBlank(f.title) && !(f.endEnabled && f.end.Some? && f.end.value <= f.start)
    ensures a.table.nextId in Submit(a, env, None, f).table.rows
    ensures a.table.nextId !in a.table.rows
  {
    SaveNewStoresRequest(a, env, f);
  }

  /** Corrected dialog: opening a valid stored reminder for editing and saving
      it untouched updates it with itself. */
  lemma EditUnchangedRoundTrip(r: Reminder, defaultStart: int)
    requires !IsBlank(r.title)
    requires r.endTime.Some? ==> r.endTime.value > r.startTime
    ensures Confirm(InitialForm(Some(r), defaultStart)).Saved?
    ensures OnSave(Some(r), Confirm(InitialForm(Some(r), defaultStart)).request) == UpdateCall(r)
  {
  }

  /** As written, the same round trip rewrites the category to "Personal". */
  lemma EditUnchangedResetsCategory(r: Reminder, defaultStart: int)
    requires !IsBlank(r.title)
    requires r.endTime.Some? ==> r.endTime.value > r.startTime
    requires r.category != "Personal"
    ensures Confirm(InitialFormAsWritten(Some(r), defaultStart)).Saved?
    ensures var d := OnSave(Some(r), Confirm(InitialFormAsWritten(Some(r), defaultStart)).request);
      d.UpdateCall? && d.reminder.category == "Personal" && d.reminder != r
  {
  }

  // ---------------------------------------------------------------------
  // List item labels
  // ---------------------------------------------------------------------

  /** A category chip's (background, text) colours, ARGB. */
  datatype TagColors = TagColors(background: int, text: int)

  const PeachTag: TagColors := TagColors(0xFFFFEDD5, 0xFFCD7C5D)
  const FallbackTag: TagColors := TagColors(0xFFFFECB3, 0xFFE65100)

  /** The category chip: shown only for a non-blank category; peach for
      "personal" in any case, the fallback pair otherwise. */
  function CategoryTag(category: string): (tag: Option<TagColors>)
    ensures tag.None? <==> IsBlank(category)
    ensures tag.Some? ==> (tag.value == PeachTag <==> Lower(category) == "personal")
    ensures tag.Some? ==> (tag.value == FallbackTag <==> Lower(category) != "personal")
  {
    if IsBlank(category) then None
    else if Lower(category) == "personal" then Some(PeachTag)
    else Some(FallbackTag)
  }

  /** The repeat stamp. Its guard compares the mode's name with "NONE", which
      no mode has, so every mode is stamped. */
  function RepeatStamp(m: RepeatMode): (stamp: Option<string>)
    ensures stamp.Some?
    ensures var name := Converters.FromRepeatMode(m);
      && |stamp.value| == |name| && stamp.value[0] == name[0]
      && forall i :: 1 <= i < |name| ==> stamp.value[i] == LowerChar(name[i])
  {
    var name := Converters.FromRepeatMode(m);
    if name != "NONE" then Some(CapitalizeFirst(Lower(name))) else None
  }

  /** Every mode, "once" included, gets a stamp, and upper-casing the stamp
      gives back the mode's stored name: the label is the name with only its
      first letter capitalised. */
  lemma StampSpellsName(m: RepeatMode)
    ensures RepeatStamp(m).Some?
    ensures Upper(RepeatStamp(m).value) == Converters.FromRepeatMode(m)
    ensures var text := RepeatStamp(m).value;
      |text| > 0 && IsUpperAscii(text[0])
      && forall i :: 1 <= i < |text| ==> !IsUpperAscii(text[i])
  {
    var name := Converters.FromRepeatMode(m);
    Text.UpperOfLower(name);
    var text := CapitalizeFirst(Lower(name));
    assert Upper(text) == Upper(Lower(name));
  }

  /** The stamp of a mode, character by character: the first letter of the
      name, then the rest of the name in lower case. */
  lemma StampChars(m: RepeatMode)
    ensures var name := Converters.FromRepeatMode(m);
      var text := RepeatStamp(m).value;
      && |text| == |name| && text[0] == name[0]
      && forall i :: 1 <= i < |name| ==> text[i] == LowerChar(name[i])
  {
  }

  /** The four stamps. */
  lemma StampLabels()
    ensures RepeatStamp(Once) == Some("Once")
    ensures RepeatStamp(Daily) == Some("Daily")
    ensures RepeatStamp(Weekly) == Some("Weekly")
    ensures RepeatStamp(Monthly) == Some("Monthly")
  {
    StampIs(Once, "Once");
    StampIs(Daily, "Daily");
    StampIs(Weekly, "Weekly");
    StampIs(Monthly, "Monthly");
  }

  lemma StampIs(m: RepeatMode, expected: string)
    requires var name := Converters.FromRepeatMode(m);
      && |expected| == |name| && expected[0] == name[0]
      && forall i :: 1 <= i < |name| ==> expected[i] == LowerChar(name[i])
    ensures RepeatStamp(m) == Some(expected)
  {
    StampChars(m);
    assert RepeatStamp(m).value == expected;
  }

  /** Distinct modes get distinct stamps. */
  lemma StampInjective(m1: RepeatMode, m2: RepeatMode)
    requires RepeatStamp(m1) == RepeatStamp(m2)
    ensures m1 == m2
  {
    StampSpellsName(m1);
    StampSpellsName(m2);
    Converters.FromRepeatModeInjective(m1, m2);
  }
}

=== FILE: optional.dfy ===
/** Kotlin's nullable types (`Long?`, `Reminder?`, `Boolean?`) as an explicit option. */
module Optional {

  datatype Option<+T> = None | Some(value: T) {

    /** Kotlin's elvis operator `x ?: default`. */
    function GetOr(default: T): (r: T)
      ensures Some? ==> r == value
      ensures None? ==> r == default
    {
      match this
      case Some(v) => v
      case None => default
    }
  }
}

=== FILE: receiver.dfy ===
/** `ReminderAlarmReceiver.onReceive`: reads the reminder's identity back out of
    the fired alarm's payload, defaulting what is missing, and asks for a
    notification with the title and description. */
module AlarmReceiver {
  import opened Optional
  import opened Reminders
  import opened Scheduler

  /** The keys the receiver reads (`AlarmConstants`), declared separately from
      the scheduler's. */
  const KeyReminderId: string := "reminder_id"
  const KeyTitle: string := "title"
  const KeyDescription: string := "description"

  const MissingId: int := -1
  const DefaultTitle: string := "Reminder"
  const DefaultDescription: string := "Don't forget!"

  /** `Intent.getIntExtra(key, default)`: the default when the key is absent
      or holds something other than an int. */
  function GetIntExtra(p: Payload, key: string, default: int): (v: int)
    ensures key in p && p[key].IntExtra? ==> v == p[key].i
    ensures !(key in p && p[key].IntExtra?) ==> v == default
  {
    if key in p && p[key].IntExtra? then p[key].i else default
  }

  /** `Intent.getStringExtra(key)`: null when the key is absent or holds
      something other than a string. */
  function GetStringExtra(p: Payload, key: string): (v: Option<string>)
    ensures v.Some? <==> key in p && p[key].StringExtra?
    ensures v.Some? ==> v.value == p[key].s
  {
    if key in p && p[key].StringExtra? then Some(p[key].s) else None
  }

  /** What `onReceive` extracts from the payload. */
  datatype Received = Received(reminderId: int, title: string, description: string)

  /** The notification request: `showReminderNotification(context, title, desc)`. */
  datatype Notification = Notification(title: string, text: string)

  /** The three reads of `onReceive`: each field is the payload's value when
      it is present with the right type, and its default otherwise. */
  function Decode(p: Payload): (d: Received)
    ensures KeyReminderId in p && p[KeyReminderId].IntExtra? ==> d.reminderId == p[KeyReminderId].i
    ensures !(KeyReminderId in p && p[KeyReminderId].IntExtra?) ==> d.reminderId == MissingId
    ensures KeyTitle in p && p[KeyTitle].StringExtra? ==> d.title == p[KeyTitle].s
    ensures !(KeyTitle in p && p[KeyTitle].StringExtra?) ==> d.title == DefaultTitle
    ensures KeyDescription in p && p[KeyDescription].StringExtra? ==> d.description == p[KeyDescription].s
    ensures !(KeyDescription in p && p[KeyDescription].StringExtra?) ==> d.description == DefaultDescription
  {
    Received(
      GetIntExtra(p, KeyReminderId, MissingId),
      GetStringExtra(p, KeyTitle).GetOr(DefaultTitle),
      GetStringExtra(p, KeyDescription).GetOr(DefaultDescription))
  }

  /** `onReceive`: the notification shows the payload's title and description,
      with "Reminder" and "Don't forget!" standing in for a missing one. */
  function OnReceive(p: Payload): (n: Notification)
    ensures !(KeyTitle in p && p[KeyTitle].StringExtra?) ==> n.title == DefaultTitle
    ensures KeyTitle in p && p[KeyTitle].StringExtra? ==> n.title == p[KeyTitle].s
    ensures !(KeyDescription in p && p[KeyDescription].StringExtra?) ==> n.text == DefaultDescription
    ensures KeyDescription in p && p[KeyDescription].StringExtra? ==> n.text == p[KeyDescription].s
  {
    var d := Decode(p);
    Notification(d.title, d.description)
  }

  /** Missing fields decode to their defaults: id -1, title "Reminder",
      description "Don't forget!". */
  lemma MissingFieldsDefault(p: Payload)
    ensures KeyReminderId !in p ==> Decode(p).reminderId == -1
    ensures KeyTitle !in p ==> Decode(p).title == "Reminder"
    ensures KeyDescription !in p ==> Decode(p).description == "Don't forget!"
    ensures p == map[] ==> OnReceive(p) == Notification("Reminder", "Don't forget!")
  {
  }

  /** Fields that are present pass through verbatim to the notification. */
  lemma PresentFieldsPassThrough(p: Payload, title: string, description: string)
    requires KeyTitle in p && p[KeyTitle] == StringExtra(title)
    requires KeyDescription in p && p[KeyDescription] == StringExtra(description)
    ensures OnReceive(p) == Notification(title, description)
  {
  }

  /** The receiver reads the keys the scheduler writes. */
  lemma KeysAgree()
    ensures KeyReminderId == ExtraReminderId
    ensures KeyTitle == ExtraTitle
    ensures KeyDescription == ExtraDescription
  {
  }

  /** Round trip: decoding the payload `schedule` writes yields the reminder's
      own id, title and description, and the notification shows its title and
      description. */
  lemma DecodeScheduledPayload(r: Reminder)
    ensures Decode(PayloadFor(r)) == Received(r.id, r.title, r.description)
    ensures OnReceive(PayloadFor(r)) == Notification(r.title, r.description)
  {
  }

  /** Closing the loop: whenever a schedule call leaves an alarm under the
      reminder's id, firing it notifies with that reminder's title and
      description. */
  lemma FiredAlarmShowsReminder(env: Platform, reg: Registry, r: Reminder)
    ensures var res := Schedule(env, reg, r);
      r.id in res.registry ==>
        Decode(res.registry[r.id].payload) == Received(r.id, r.title, r.description)
  {
    DecodeScheduledPayload(r);
  }
}

=== FILE: reminder.dfy ===
/** The persisted `Reminder` record and its repeat cadence. */
module Reminders {
  import opened Optional

  /** The repeat cadence. The enum's constants, in declaration order. */
  datatype RepeatMode = Once | Daily | Weekly | Monthly

  /** Id of a reminder the store has not yet assigned a key to. */
  const Unsaved: int := 0

  /** Category a reminder gets when none is given. */
  const DefaultCategory: string := "Personal"

  /** Repeat mode a reminder gets when none is given. */
  const DefaultRepeatMode: RepeatMode := Once

  /** One row of the reminder table. Times are epoch milliseconds (Kotlin
      `Long`); `startTime` is always present, `endTime` is optional. */
  datatype Reminder = Reminder(
    id: int,
    title: string,
    description: string,
    startTime: int,
    endTime: Option<int>,
    repeatMode: RepeatMode,
    category: string)

  /** The data-class constructor called with only the fields that have no
      default value: the id says "not yet persisted", the category is the
      default one, and the repeat mode defaults to `Once`. */
  function NewReminder(title: string, description: string, startTime: int,
                       endTime: Option<int>, repeatMode: RepeatMode := DefaultRepeatMode): (r: Reminder)
    ensures r.id == Unsaved
    ensures r.category == DefaultCategory
    ensures r.title == title && r.description == description
    ensures r.startTime == startTime && r.endTime == endTime && r.repeatMode == repeatMode
  {
    Reminder(Unsaved, title, description, startTime, endTime, repeatMode, DefaultCategory)
  }

  /** `reminder.copy(id = newId)`: the store's key put on an unsaved record. */
  function WithId(r: Reminder, newId: int): (c: Reminder)
    ensures c.id == newId
    ensures c.(id := r.id) == r
  {
    r.(id := newId)
  }
}

=== FILE: scheduler.dfy ===
/** `ReminderScheduler`: turns a reminder into an entry of the platform's alarm
    registry, or removes that entry.

    The platform is abstract. The alarm registry is a map keyed by the
    `PendingIntent` request code, which is always `reminder.id`; the two
    platform queries (`SDK_INT >= S`, `canScheduleExactAlarms()`) and the
    possibility that `setExactAndAllowWhileIdle` throws are flags. */
module Scheduler {
  import opened Optional
  import opened Reminders

  /** The extra keys the scheduler writes (`AlarmReceiverConstants`). */
  const ExtraReminderId: string := "reminder_id"
  const ExtraTitle: string := "title"
  const ExtraDescription: string := "description"

  /** A value stored in an `Intent`'s extras bundle. */
  datatype Extra = IntExtra(i: int) | StringExtra(s: string)

  /** An `Intent`'s extras bundle. */
  type Payload = map<string, Extra>

  /** One registered alarm: first trigger time, repeat interval (`None` for a
      one-shot exact alarm) and the payload delivered when it fires. */
  datatype Alarm = Alarm(triggerAt: int, interval: Option<int>, payload: Payload)

  /** The platform's alarm registry, keyed by request code. */
  type Registry = map<int, Alarm>

  /** What the scheduler may ask of the platform at the moment of the call. */
  datatype Platform = Platform(
    sdkAtLeastS: bool,        // Build.VERSION.SDK_INT >= Build.VERSION_CODES.S
    canScheduleExact: bool,   // alarmManager.canScheduleExactAlarms()
    exactCallThrows: bool)    // setExactAndAllowWhileIdle raises an exception

  /** `AlarmManager.INTERVAL_DAY`, in milliseconds. */
  const IntervalDay: int := 86_400_000

  /** The repeat interval of a mode; `Once` has none. */
  function IntervalFor(m: RepeatMode): (r: Option<int>)
    ensures r.None? <==> m == Once
    ensures r.Some? ==> r.value > 0 && r.value % IntervalDay == 0
  {
    match m
    case Once => None
    case Daily => Some(IntervalDay)
    case Weekly => Some(IntervalDay * 7)
    case Monthly => Some(IntervalDay * 30)
  }

  /** The payload `schedule` puts in the intent. */
  function PayloadFor(r: Reminder): (p: Payload)
    ensures p.Keys == {ExtraReminderId, ExtraTitle, ExtraDescription}
    ensures p[ExtraReminderId] == IntExtra(r.id)
    ensures p[ExtraTitle] == StringExtra(r.title)
    ensures p[ExtraDescription] == StringExtra(r.description)
  {
    map[ExtraReminderId := IntExtra(r.id),
        ExtraTitle := StringExtra(r.title),
        ExtraDescription := StringExtra(r.description)]
  }

  /** The alarm a successful registration of `r` leaves in the registry. */
  function AlarmFor(r: Reminder): (a: Alarm)
    ensures a.triggerAt == r.startTime
    ensures a.payload == PayloadFor(r)
    ensures a.interval == IntervalFor(r.repeatMode)
  {
    Alarm(r.startTime, IntervalFor(r.repeatMode), PayloadFor(r))
  }

  /** `PendingIntent.getBroadcast(..., FLAG_UPDATE_CURRENT)`: when a pending
      intent with this request code already exists, its extras are replaced,
      so an alarm already registered under the id will deliver the new payload.
      Nothing else changes. */
  function RefreshPayload(reg: Registry, id: int, p: Payload): (reg': Registry)
    ensures reg'.Keys == reg.Keys
    ensures forall k :: k in reg && k != id ==> reg'[k] == reg[k]
    ensures id in reg ==> reg'[id] == reg[id].(payload := p)
  {
    if id in reg then reg[id := reg[id].(payload := p)] else reg
  }

  /** Result of `schedule`: the returned Boolean and the registry afterwards. */
  datatype Scheduled = Scheduled(ok: bool, registry: Registry)

  /** The exact-alarm gate: a one-shot reminder on Android S or later without
      the exact-alarm capability is refused. */
  predicate NeedsExactPermission(env: Platform, r: Reminder) {
    r.repeatMode == Once && env.sdkAtLeastS && !env.canScheduleExact
  }

  /** A schedule call that ends with the reminder's alarm registered: not
      refused at the exact-alarm gate, and not a one-shot whose exact call
      throws. */
  predicate Registers(env: Platform, r: Reminder) {
    !NeedsExactPermission(env, r) && !(r.repeatMode == Once && env.exactCallThrows)
  }

  /** `setExactAlarmInternal`: a one-shot exact alarm at the start time,
      unless the platform throws, in which case the exception is swallowed and
      only the pending intent's refreshed payload remains. */
  function SetExact(env: Platform, reg: Registry, r: Reminder): (reg': Registry)
    ensures !env.exactCallThrows ==>
              r.id in reg' && reg'[r.id] == Alarm(r.startTime, None, PayloadFor(r))
    ensures !env.exactCallThrows && r.repeatMode == Once ==> reg'[r.id] == AlarmFor(r)
    ensures env.exactCallThrows ==> reg'.Keys == reg.Keys
    ensures env.exactCallThrows && r.id in reg ==>
              reg'[r.id].triggerAt == reg[r.id].triggerAt
              && reg'[r.id].interval == reg[r.id].interval
              && reg'[r.id].payload == PayloadFor(r)
    ensures forall k :: k != r.id ==> (k in reg' <==> k in reg)
    ensures forall k :: k in reg && k != r.id ==> reg'[k] == reg[k]
  {
    if env.exactCallThrows then RefreshPayload(reg, r.id, PayloadFor(r))
    else reg[r.id := Alarm(r.startTime, None, PayloadFor(r))]
  }

  /** `ReminderScheduler.schedule(reminder)`. */
  function Schedule(env: Platform, reg: Registry, r: Reminder): (res: Scheduled)
    // refused exactly when the exact-alarm gate applies; repeating modes never ask
    ensures !res.ok <==> NeedsExactPermission(env, r)
    ensures r.repeatMode != Once ==> res.ok
    // only the entry keyed by the reminder's id can change
    ensures forall k :: k != r.id ==> (k in res.registry <==> k in reg)
    ensures forall k :: k in reg && k != r.id ==> res.registry[k] == reg[k]
    // a refused or failed call registers nothing new
    ensures (!res.ok || (r.repeatMode == Once && env.exactCallThrows)) ==>
              res.registry == RefreshPayload(reg, r.id, PayloadFor(r))
    // otherwise the entry is exactly the reminder's alarm
    ensures res.ok && !(r.repeatMode == Once && env.exactCallThrows) ==>
              r.id in res.registry && res.registry[r.id] == AlarmFor(r)
    // whatever happens, an entry under the id carries the reminder's payload
    ensures r.id in res.registry ==> res.registry[r.id].payload == PayloadFor(r)
  {
    var p := PayloadFor(r);
    match r.repeatMode
    case Once =>
      if env.sdkAtLeastS then
        if env.canScheduleExact then Scheduled(true, SetExact(env, reg, r))
        else Scheduled(false, RefreshPayload(reg, r.id, p))
      else Scheduled(true, SetExact(env, reg, r))
    case _ =>
      Scheduled(true, reg[r.id := Alarm(r.startTime, IntervalFor(r.repeatMode), p)])
  }

  /** `ReminderScheduler.cancel(reminder)`: cancels the alarm registered under
      the id when there is one; otherwise nothing happens. */
  function Cancel(reg: Registry, id: int): (reg': Registry)
    ensures id !in reg'
    ensures forall k :: k != id ==> (k in reg' <==> k in reg)
    ensures forall k :: k in reg && k != id ==> reg'[k] == reg[k]
    ensures id !in reg ==> reg' == reg
  {
    reg - {id}
  }

  /** The daily, weekly and monthly intervals are 1, 7 and 30 days, and
      strictly positive. */
  lemma IntervalTable()
    ensures IntervalFor(Daily) == Some(86_400_000)
    ensures IntervalFor(Weekly) == Some(604_800_000)
    ensures IntervalFor(Monthly) == Some(2_592_000_000)
    ensures forall m :: IntervalFor(m).Some? ==> IntervalFor(m).value > 0
  {
  }

  /** With no alarm yet under the id, a refused schedule leaves the registry
      exactly as it was. */
  lemma RefusedLeavesRegistry(env: Platform, reg: Registry, r: Reminder)
    requires NeedsExactPermission(env, r)
    requires r.id !in reg
    ensures Schedule(env, reg, r) == Scheduled(false, reg)
  {
  }

  /** `true` does not promise an alarm: a one-shot registration that throws
      is reported as success and registers nothing. */
  lemma SuccessWithoutAlarm(env: Platform, reg: Registry, r: Reminder)
    requires r.repeatMode == Once && env.exactCallThrows
    requires !NeedsExactPermission(env, r)
    requires r.id !in reg
    ensures Schedule(env, reg, r).ok
    ensures r.id !in Schedule(env, reg, r).registry
  {
  }

  /** Cancelling twice is cancelling once: a second cancel is a no-op. */
  lemma CancelIdempotent(reg: Registry, id: int)
    ensures Cancel(Cancel(reg, id), id) == Cancel(reg, id)
  {
  }

  /** Cancel then schedule leaves at most the new reminder's alarm under the
      id: nothing from an earlier registration survives. */
  lemma CancelThenSchedule(env: Platform, reg: Registry, r: Reminder)
    ensures var res := Schedule(env, Cancel(reg, r.id), r);
      (r.id in res.registry ==> res.registry[r.id] == AlarmFor(r))
      && (r.id in res.registry <==> res.ok && !(r.repeatMode == Once && env.exactCallThrows))
      && (r.id in res.registry <==> Registers(env, r))
  {
  }
}

=== FILE: store.dfy ===
/** The reminder table, abstracted from the persistence layer: a map from
    primary key to row. The listing query orders rows by ascending id. */
module ReminderStore {
  import opened Reminders

  /** Every row sits under its own id: the id column is the primary key. */
  predicate KeyedById(m: map<int, Reminder>) {
    forall k :: k in m ==> m[k].id == k
  }

  type Store = m: map<int, Reminder> | KeyedById(m) witness map[]

  /** The table with its AUTOINCREMENT key generator. Generated keys start at
      1 and are never reused; an explicit key moves the generator past it.
      So every stored key lies below `nextId`, and none is the unsaved id 0,
      which asks for a generated key. */
  datatype Table = Table(rows: Store, nextId: int)

  predicate KeysBelowNext(t: Table) {
    1 <= t.nextId && forall k :: k in t.rows ==> k != Unsaved && k < t.nextId
  }

  type ReminderTable = t: Table | KeysBelowNext(t) witness Table(map[], 1)

  const EmptyTable: ReminderTable := Table(map[], 1)

  /** Result of an insert: the table afterwards and the generated key. */
  datatype Inserted = Inserted(table: ReminderTable, id: int)

  /** `@Insert(onConflict = REPLACE)`, returning the row's key. A reminder
      whose id is 0 gets a fresh generated key; any other id is used as the
      key, replacing the row already stored under it. */
  function Insert(t: ReminderTable, r: Reminder): (res: Inserted)
    ensures r.id == Unsaved ==> res.id !in t.rows && res.id != Unsaved
    ensures r.id != Unsaved ==> res.id == r.id
    ensures res.table.rows.Keys == t.rows.Keys + {res.id}
    ensures forall k :: k in t.rows && k != res.id ==> res.table.rows[k] == t.rows[k]
    ensures res.table.rows[res.id] == WithId(r, res.id)
    ensures res.table.rows[res.id].(id := r.id) == r
  {
    if r.id == Unsaved then
      var id := t.nextId;
      Inserted(Table(t.rows[id := WithId(r, id)], id + 1), id)
    else
      var next := if r.id >= t.nextId then r.id + 1 else t.nextId;
      Inserted(Table(t.rows[r.id := r], next), r.id)
  }

  /** Inserting a reminder that is already stored leaves the same rows as
      updating it. */
  lemma InsertStoredIsUpdate(t: ReminderTable, r: Reminder)
    requires r.id != Unsaved && r.id in t.rows
    ensures Insert(t, r).table.rows == Update(t, r).rows
    ensures Insert(t, r).table.nextId == t.nextId
  {
  }

  /** `@Update`: replaces the row with the same id; no row, no change. */
  function Update(t: ReminderTable, r: Reminder): (t': ReminderTable)
    ensures t'.nextId == t.nextId && t'.rows.Keys == t.rows.Keys
    ensures r.id in t.rows ==> t'.rows[r.id] == r
    ensures forall k :: k in t.rows && k != r.id ==> t'.rows[k] == t.rows[k]
  {
    if r.id in t.rows then t.(rows := t.rows[r.id := r]) else t
  }

  /** `@Delete`: removes the row with the reminder's id, if any. */
  function Delete(t: ReminderTable, id: int): (t': ReminderTable)
    ensures id !in t'.rows && t'.nextId == t.nextId
    ensures t'.rows.Keys == t.rows.Keys - {id}
    ensures forall k :: k in t'.rows ==> t'.rows[k] == t.rows[k]
  {
    t.(rows := t.rows - {id})
  }

  predicate IsLeast(m: int, ids: set<int>) {
    m in ids && forall k :: k in ids ==> m <= k
  }

  /** The smaller of an element and the least of the others is the least of all. */
  lemma LeastOfInsert(x: int, m: int, ids: set<int>)
    requires x in ids && IsLeast(m, ids - {x})
    ensures IsLeast(if x < m then x else m, ids)
  {
    forall k | k in ids
      ensures (if x < m then x else m) <= k
    {
      if k != x {
        assert k in ids - {x};
      }
    }
  }

  /** A non-empty finite set of ids has a least element. */
  lemma {:induction false} LeastExists(ids: set<int>)
    requires ids != {}
    ensures exists m :: IsLeast(m, ids)
  {
    if forall y :: y !in ids {
      assert false;  // a non-empty set has an element
    }
    var x :| x in ids;
    if ids == {x} {
      assert IsLeast(x, ids);
    } else {
      LeastExists(ids - {x});
      var m :| IsLeast(m, ids - {x});
      LeastOfInsert(x, m, ids);
    }
  }

  /** `getAllReminders()`: every row exactly once, in ascending id order. */
  method AllReminders(s: Store) returns (rows: seq<Reminder>)
    ensures forall i, j :: 0 <= i < j < |rows| ==> rows[i].id < rows[j].id
    ensures forall i :: 0 <= i < |rows| ==> rows[i].id in s && s[rows[i].id] == rows[i]
    ensures forall k :: k in s ==> s[k] in rows
  {
    rows := [];
    var rest := s.Keys;
    while rest != {}
      invariant rest <= s.Keys
      invariant forall i :: 0 <= i < |rows| ==> rows[i].id in s && s[rows[i].id] == rows[i]
      invariant forall i :: 0 <= i < |rows| ==> rows[i].id !in rest
      invariant forall i, j :: 0 <= i < j < |rows| ==> rows[i].id < rows[j].id
      invariant forall i, k :: 0 <= i < |rows| && k in rest ==> rows[i].id < k
      invariant forall k :: k in s && k !in rest ==> s[k] in rows
      decreases rest
    {
      LeastExists(rest);
      var m :| IsLeast(m, rest);
      rows := rows + [s[m]];
      rest := rest - {m};
    }
  }
}

=== FILE: text.dfy ===
/** The few Kotlin string operations the reminder app relies on: `isBlank`,
    `lowercase`, `uppercase`, `equals(ignoreCase = true)` and `replaceFirstChar`.
    Case mapping is modelled for ASCII letters only; every other character maps
    to itself. */
module Text {

  /** Kotlin's `Char.isWhitespace()` on the JVM: `Character.isWhitespace` or
      `Character.isSpaceChar`, i.e. the ASCII controls TAB..CR and FS..US plus
      the Unicode space, line and paragraph separators. */
  predicate IsWhitespace(c: char) {
    var n := c as int;
    || (0x09 <= n <= 0x0D)
    || (0x1C <= n <= 0x20)
    || n == 0xA0
    || n == 0x1680
    || (0x2000 <= n <= 0x200A)
    || n == 0x2028 || n == 0x2029
    || n == 0x202F || n == 0x205F
    || n == 0x3000
  }

  /** `String.isBlank()`: empty, or whitespace only. */
  predicate IsBlank(s: string) {
    forall i :: 0 <= i < |s| ==> IsWhitespace(s[i])
  }

  predicate IsUpperAscii(c: char) { 'A' <= c <= 'Z' }

  predicate IsLowerAscii(c: char) { 'a' <= c <= 'z' }

  function LowerChar(c: char): (r: char)
    ensures IsUpperAscii(c) ==> IsLowerAscii(r)
    ensures !IsUpperAscii(c) ==> r == c
  {
    if IsUpperAscii(c) then (c as int + 32) as char else c
  }

  function UpperChar(c: char): (r: char)
    ensures IsLowerAscii(c) ==> IsUpperAscii(r)
    ensures !IsLowerAscii(c) ==> r == c
  {
    if IsLowerAscii(c) then (c as int - 32) as char else c
  }

  /** `String.lowercase()`, character by character. */
  function Lower(s: string): (r: string)
    ensures |r| == |s|
    ensures forall i :: 0 <= i < |s| ==> r[i] == LowerChar(s[i])
  {
    seq(|s|, i requires 0 <= i < |s| => LowerChar(s[i]))
  }

  /** `String.uppercase()`, character by character. */
  function Upper(s: string): (r: string)
    ensures |r| == |s|
    ensures forall i :: 0 <= i < |s| ==> r[i] == UpperChar(s[i])
  {
    seq(|s|, i requires 0 <= i < |s| => UpperChar(s[i]))
  }

  /** `a.equals(b, ignoreCase = true)`. */
  predicate EqualsIgnoreCase(a: string, b: string) {
    Lower(a) == Lower(b)
  }

  /** `s.replaceFirstChar { it.uppercase() }`. */
  function CapitalizeFirst(s: string): (r: string)
    ensures |r| == |s|
    ensures |s| > 0 ==> r[0] == UpperChar(s[0]) && r[1..] == s[1..]
  {
    if s == [] then [] else [UpperChar(s[0])] + s[1..]
  }

  /** Upper-casing undoes lower-casing on text written in capitals, which is
      how enum constant names are spelled. */
  lemma UpperOfLower(s: string)
    requires forall i :: 0 <= i < |s| ==> !IsLowerAscii(s[i])
    ensures Upper(Lower(s)) == s
  {
    forall i | 0 <= i < |s|
      ensures Upper(Lower(s))[i] == s[i]
    {
      assert Lower(s)[i] == LowerChar(s[i]);
    }
  }
}

=== FILE: viewmodel.dfy ===
/** `ReminderViewModel`: the orchestrator between the screen, the reminder
    table and the scheduler, with its exact-alarm permission state machine.

    Coroutines are sequentialised: each public operation is one atomic step
    over the whole application state. The platform answers the scheduler's
    queries through a `Platform` value given with each step. */
module ViewModel {
  import opened Optional
  import opened Reminders
  import opened Scheduler
  import opened ReminderStore
  import AlarmReceiver

  /** The permission state: the "prompt needed" flag, the outcome of the last
      request (`null` = unset) and the reminder waiting for the permission. */
  datatype Permission = Permission(
    needsPermission: bool,
    outcome: Option<bool>,
    pending: Option<Reminder>)

  const InitialPermission: Permission := Permission(false, None, None)

  /** Everything the orchestrator touches: the table, the alarm registry and
      its own permission state. */
  datatype App = App(table: ReminderTable, registry: Registry, perm: Permission)

  const InitialApp: App := App(EmptyTable, map[], InitialPermission)

  // ---------------------------------------------------------------------
  // Operations
  // ---------------------------------------------------------------------

  /** `scheduleReminderInternal`: asks the scheduler; on refusal the reminder
      becomes the pending one and a prompt is requested, on success the
      pending slot is emptied. */
  function ScheduleInternal(a: App, env: Platform, r: Reminder): (a': App)
    ensures a'.table == a.table
    ensures a'.registry == Schedule(env, a.registry, r).registry
    ensures a'.perm.outcome == a.perm.outcome
    ensures NeedsExactPermission(env, r) ==>
              a'.perm.pending == Some(r) && a'.perm.needsPermission
    ensures !NeedsExactPermission(env, r) ==>
              a'.perm.pending == None && a'.perm.needsPermission == a.perm.needsPermission
  {
    var res := Schedule(env, a.registry, r);
    if !res.ok then
      App(a.table, res.registry, a.perm.(pending := Some(r), needsPermission := true))
    else
      App(a.table, res.registry, a.perm.(pending := None))
  }

  /** `insertReminder(title, desc, startTime, endTime, repeatMode)`: stores a
      new row with the default category under a generated id, then schedules
      that row. */
  function InsertReminder(a: App, env: Platform, title: string, description: string,
                          startTime: int, endTime: Option<int>, mode: RepeatMode): (a': App)
    ensures var id := a.table.nextId;
      && id !in a.table.rows
      && a'.table.rows.Keys == a.table.rows.Keys + {id}
      && a'.table.rows[id] == Reminder(id, title, description, startTime, endTime, mode, DefaultCategory)
      && (forall k :: k in a.table.rows ==> a'.table.rows[k] == a.table.rows[k])
      && a'.registry == Schedule(env, a.registry, a'.table.rows[id]).registry
    // the new row goes through `scheduleReminderInternal`
    ensures var row := a'.table.rows[a.table.nextId];
      && a'.perm.outcome == a.perm.outcome
      && (NeedsExactPermission(env, row) ==> a'.perm.pending == Some(row) && a'.perm.needsPermission)
      && (!NeedsExactPermission(env, row) ==>
            a'.perm.pending.None? && a'.perm.needsPermission == a.perm.needsPermission)
  {
    var ins := ReminderStore.Insert(a.table, NewReminder(title, description, startTime, endTime, mode));
    ScheduleInternal(a.(table := ins.table), env, ins.table.rows[ins.id])
  }

  /** `updateReminder(reminder)`: writes the row, cancels the old alarm, then
      schedules the new version. */
  function UpdateReminder(a: App, env: Platform, r: Reminder): (a': App)
    ensures a'.table == ReminderStore.Update(a.table, r)
    // no alarm of the old version survives: the id carries the new alarm or none
    ensures r.id in a'.registry ==> a'.registry[r.id] == AlarmFor(r)
    ensures r.id in a'.registry <==> Registers(env, r)
    ensures forall k :: k != r.id ==> (k in a'.registry <==> k in a.registry)
    ensures forall k :: k in a.registry && k != r.id ==> a'.registry[k] == a.registry[k]
    ensures NeedsExactPermission(env, r) ==> a'.perm.pending == Some(r) && a'.perm.needsPermission
    ensures !NeedsExactPermission(env, r) ==>
              a'.perm.pending == None && a'.perm.needsPermission == a.perm.needsPermission
    ensures a'.perm.outcome == a.perm.outcome
  {
    var t := ReminderStore.Update(a.table, r);
    var reg := Cancel(a.registry, r.id);
    ScheduleInternal(App(t, reg, a.perm), env, r)
  }

  /** `deleteReminder(reminder)` as the source writes it: removes the row and
      cancels the alarm, but leaves the pending slot alone. */
  function DeleteReminderAsWritten(a: App, r: Reminder): (a': App)
    ensures r.id !in a'.table.rows && r.id !in a'.registry
    ensures a'.table == ReminderStore.Delete(a.table, r.id)
    ensures a'.registry == Cancel(a.registry, r.id)
    ensures a'.perm == a.perm
  {
    App(ReminderStore.Delete(a.table, r.id), Cancel(a.registry, r.id), a.perm)
  }

  /** `deleteReminder` corrected: a reminder that is deleted while it waits
      for the exact-alarm permission stops waiting. */
  function DeleteReminder(a: App, r: Reminder): (a': App)
    ensures r.id !in a'.table.rows && r.id !in a'.registry
    ensures a'.table == ReminderStore.Delete(a.table, r.id)
    ensures a'.registry == Cancel(a.registry, r.id)
    ensures a'.perm.pending.Some? ==> a'.perm.pending.value.id != r.id
    ensures a'.perm.pending.Some? ==> a'.perm.pending == a.perm.pending
    ensures a.perm.pending.Some? && a.perm.pending.value.id != r.id ==> a'.perm.pending == a.perm.pending
    ensures a'.perm.needsPermission == a.perm.needsPermission && a'.perm.outcome == a.perm.outcome
  {
    var a1 := DeleteReminderAsWritten(a, r);
    if a.perm.pending.Some? && a.perm.pending.value.id == r.id then
      a1.(perm := a1.perm.(pending := None))
    else a1
  }

  /** `onExactAlarmPermissionPromptHandled`: the prompt has been shown. */
  function PromptHandled(a: App): (a': App)
    ensures !a'.perm.needsPermission
    ensures a'.table == a.table && a'.registry == a.registry
    ensures a'.perm.outcome == a.perm.outcome && a'.perm.pending == a.perm.pending
  {
    a.(perm := a.perm.(needsPermission := false))
  }

  /** `onExactAlarmPermissionGranted`: records the grant and retries the
      pending reminder, if there is one. */
  function Granted(a: App, env: Platform): (a': App)
    ensures a'.perm.outcome == Some(true)
    ensures a'.table == a.table
    ensures a.perm.pending.None? ==>
              a'.registry == a.registry && a'.perm.pending.None?
              && a'.perm.needsPermission == a.perm.needsPermission
    ensures a.perm.pending.Some? ==>
              var p := a.perm.pending.value;
              && a'.registry == Schedule(env, a.registry, p).registry
              && (NeedsExactPermission(env, p) ==> a'.perm.pending == Some(p) && a'.perm.needsPermission)
              && (!NeedsExactPermission(env, p) ==>
                    a'.perm.pending.None? && a'.perm.needsPermission == a.perm.needsPermission)
  {
    var a1 := a.(perm := a.perm.(outcome := Some(true)));
    match a.perm.pending
    case Some(p) => ScheduleInternal(a1, env, p)
    case None => a1
  }

  /** `onExactAlarmPermissionDenied`: records the denial and drops the pending
      reminder unscheduled. */
  function Denied(a: App): (a': App)
    ensures a'.perm.outcome == Some(false) && a'.perm.pending.None?
    ensures a'.perm.needsPermission == a.perm.needsPermission
    ensures a'.table == a.table && a'.registry == a.registry
  {
    a.(perm := a.perm.(outcome := Some(false), pending := None))
  }

  /** `clearPermissionOutcome`: back to "unset". */
  function ClearOutcome(a: App): (a': App)
    ensures a'.perm.outcome.None?
    ensures a'.perm.needsPermission == a.perm.needsPermission && a'.perm.pending == a.perm.pending
    ensures a'.table == a.table && a'.registry == a.registry
  {
    a.(perm := a.perm.(outcome := None))
  }

  // ---------------------------------------------------------------------
  // The invariant the orchestrator maintains
  // ---------------------------------------------------------------------

  /** Every registered alarm belongs to a stored reminder and is exactly the
      alarm that reminder schedules: one alarm per id, never stale. */
  predicate AlarmsMatchRows(rows: Store, reg: Registry) {
    forall id :: id in reg ==> id in rows && reg[id] == AlarmFor(rows[id])
  }

  /** The pending reminder, if any, is the stored version of a reminder. */
  predicate PendingIsStored(rows: Store, pending: Option<Reminder>) {
    pending.Some? ==> pending.value.id in rows && rows[pending.value.id] == pending.value
  }

  predicate Consistent(a: App) {
    AlarmsMatchRows(a.table.rows, a.registry) && PendingIsStored(a.table.rows, a.perm.pending)
  }

  lemma InitialConsistent()
    ensures Consistent(InitialApp)
  {
  }

  /** Scheduling the stored version of a reminder keeps every alarm matched to
      its row and leaves a pending reminder that is stored. */
  lemma ScheduleStoredKeepsConsistent(a: App, env: Platform, r: Reminder)
    requires AlarmsMatchRows(a.table.rows, a.registry)
    requires r.id in a.table.rows && a.table.rows[r.id] == r
    ensures Consistent(ScheduleInternal(a, env, r))
  {
  }

  lemma InsertKeepsConsistent(a: App, env: Platform, title: string, description: string,
                              startTime: int, endTime: Option<int>, mode: RepeatMode)
    requires Consistent(a)
    ensures Consistent(InsertReminder(a, env, title, description, startTime, endTime, mode))
  {
    var ins := ReminderStore.Insert(a.table, NewReminder(title, description, startTime, endTime, mode));
    var a1 := a.(table := ins.table);
    assert AlarmsMatchRows(a1.table.rows, a1.registry);
    ScheduleStoredKeepsConsistent(a1, env, ins.table.rows[ins.id]);
  }

  /** Updating a stored reminder keeps the invariant. The screen only edits
      reminders it lists, which are stored. */
  lemma UpdateKeepsConsistent(a: App, env: Platform, r: Reminder)
    requires Consistent(a)
    requires r.id in a.table.rows
    ensures Consistent(UpdateReminder(a, env, r))
  {
    var a1 := App(ReminderStore.Update(a.table, r), Cancel(a.registry, r.id), a.perm);
    assert AlarmsMatchRows(a1.table.rows, a1.registry);
    ScheduleStoredKeepsConsistent(a1, env, r);
  }

  lemma DeleteKeepsConsistent(a: App, r: Reminder)
    requires Consistent(a)
    ensures Consistent(DeleteReminder(a, r))
  {
  }

  lemma GrantedKeepsConsistent(a: App, env: Platform)
    requires Consistent(a)
    ensures Consistent(Granted(a, env))
  {
    if a.perm.pending.Some? {
      var a1 := a.(perm := a.perm.(outcome := Some(true)));
      ScheduleStoredKeepsConsistent(a1, env, a.perm.pending.value);
    }
  }

  // ---------------------------------------------------------------------
  // Arbitrary sequences of user actions and permission callbacks
  // ---------------------------------------------------------------------

  /** One call into the orchestrator, from the screen or from the activity's
      permission handling. */
  datatype Event =
    | Insert(insertEnv: Platform, title: string, description: string,
             startTime: int, endTime: Option<int>, mode: RepeatMode)
    | Update(updateEnv: Platform, reminder: Reminder)
    | Delete(deleted: Reminder)
    | PromptShown
    | PermissionGranted(grantEnv: Platform)
    | PermissionDenied
    | OutcomeShown

  function Step(a: App, e: Event): App {
    match e
    case Insert(env, t, d, s, en, m) => InsertReminder(a, env, t, d, s, en, m)
    case Update(env, r) => UpdateReminder(a, env, r)
    case Delete(r) => DeleteReminder(a, r)
    case PromptShown => PromptHandled(a)
    case PermissionGranted(env) => Granted(a, env)
    case PermissionDenied => Denied(a)
    case OutcomeShown => ClearOutcome(a)
  }

  /** Edits come from the list, so an updated reminder is a stored one. */
  predicate Admissible(a: App, e: Event) {
    e.Update? ==> e.reminder.id in a.table.rows
  }

  function Run(a: App, es: seq<Event>): App
    decreases |es|
  {
    if es == [] then a else Run(Step(a, es[0]), es[1..])
  }

  predicate AdmissibleRun(a: App, es: seq<Event>)
    decreases |es|
  {
    es != [] ==> Admissible(a, es[0]) && AdmissibleRun(Step(a, es[0]), es[1..])
  }

  lemma StepKeepsConsistent(a: App, e: Event)
    requires Consistent(a) && Admissible(a, e)
    ensures Consistent(Step(a, e))
  {
    match e
    case Insert(env, t, d, s, en, m) => InsertKeepsConsistent(a, env, t, d, s, en, m);
    case Update(env, r) => UpdateKeepsConsistent(a, env, r);
    case Delete(r) => DeleteKeepsConsistent(a, r);
    case PermissionGranted(env) => GrantedKeepsConsistent(a, env);
    case _ =>
  }

  /** Whatever the user and the permission callbacks do, every registered
      alarm belongs to a stored reminder and matches its current version. */
  lemma {:induction false} RunKeepsConsistent(a: App, es: seq<Event>)
    requires Consistent(a) && AdmissibleRun(a, es)
    ensures Consistent(Run(a, es))
    decreases |es|
  {
    if es != [] {
      StepKeepsConsistent(a, es[0]);
      RunKeepsConsistent(Step(a, es[0]), es[1..]);
    }
  }

  /** Consequence: a firing alarm always notifies with the current title and
      description of a reminder that still exists. */
  lemma FiredAlarmIsCurrent(a: App, id: int)
    requires Consistent(a) && id in a.registry
    ensures id in a.table.rows
    ensures AlarmReceiver.Decode(a.registry[id].payload)
            == AlarmReceiver.Received(id, a.table.rows[id].title, a.table.rows[id].description)
  {
    AlarmReceiver.DecodeScheduledPayload(a.table.rows[id]);
  }

  /** Granting after a refusal retries exactly the refused reminder; with the
      capability present it is registered and the slot is emptied. */
  lemma GrantRetriesRefused(a: App, deny: Platform, grant: Platform, r: Reminder)
    requires NeedsExactPermission(deny, r)
    requires !NeedsExactPermission(grant, r) && !grant.exactCallThrows
    ensures var b := Granted(ScheduleInternal(a, deny, r), grant);
      && b.perm.pending.None?
      && r.id in b.registry && b.registry[r.id] == AlarmFor(r)
      && b.perm.outcome == Some(true)
  {
  }

  /** Deleting leaves neither a row nor an alarm for the id, and deleting an
      already deleted reminder changes nothing. */
  lemma DeleteTwice(a: App, r: Reminder)
    ensures var b := DeleteReminder(a, r);
      r.id !in b.table.rows && r.id !in b.registry && DeleteReminder(b, r) == b
  {
  }

  // ---------------------------------------------------------------------
  // Finding: the source's delete leaves a deleted reminder pending
  // ---------------------------------------------------------------------

  /** As written, deleting the pending reminder and then granting the
      permission registers an alarm for a reminder that no longer exists. */
  lemma DeletedPendingIsRescheduled(a: App, env: Platform, p: Reminder)
    requires a.perm.pending == Some(p)
    requires !NeedsExactPermission(env, p) && !env.exactCallThrows
    ensures var b := Granted(DeleteReminderAsWritten(a, p), env);
      p.id !in b.table.rows && p.id in b.registry
  {
  }

  /** A concrete run: a one-shot reminder is refused on Android S without the
      capability, deleted, and the permission is then granted. */
  lemma OrphanAlarmExample()
    ensures var deny := Platform(true, false, false);
      var grant := Platform(true, true, false);
      var a1 := InsertReminder(InitialApp, deny, "Pay rent", "", 1000, None, Once);
      var a2 := DeleteReminderAsWritten(a1, a1.table.rows[1]);
      var a3 := Granted(a2, grant);
      1 !in a3.table.rows && 1 in a3.registry && !Consistent(a3)
  {
    var deny := Platform(true, false, false);
    var grant := Platform(true, true, false);
    var a1 := InsertReminder(InitialApp, deny, "Pay rent", "", 1000, None, Once);
    assert a1.perm.pending == Some(a1.table.rows[1]);
    DeletedPendingIsRescheduled(DeleteReminderAsWritten(a1, a1.table.rows[1]), grant, a1.table.rows[1]);
  }

  /** Corrected: deleting the pending reminder and then granting registers
      nothing for it. */
  lemma DeletedPendingStaysCancelled(a: App, env: Platform, p: Reminder)
    requires a.perm.pending == Some(p)
    ensures var b := Granted(DeleteReminder(a, p), env);
      p.id !in b.table.rows && p.id !in b.registry
  {
  }
}
